=== FILE: README.md ===
# EchoAI email composer — a Dafny model of the page logic

EchoAI is a single-page composer: the user pastes an incoming email, sets tone and length, and the
page sends a prompt to an external agent, normalises the loosely typed answer into an email reply,
renders its body as a small markdown subset, and keeps a newest-first history of past replies in
browser storage. This project models the pure logic of `app/page.tsx` with the view removed:

- `Json` — the loosely typed values the agent returns, with JavaScript truthiness, `typeof … ===
  'object'` and optional property reads.
- `Extract` — `extractAgentData`, the ordered chain of shape tests. The lenient JSON parser the
  page imports is a parameter (`parse: string -> JsonValue`), an arbitrary total function.
- `Inline` — `formatInline`: the global split on `**…**` pairs (leftmost opening, lazy closing,
  no line terminator inside) into alternating plain and bold runs.
- `Markdown` — `renderMarkdown` as a list of blocks (`H`, `Li`, `Spacer`, `P`), one per line,
  classified by the first matching prefix rule.
- `Reply` — the reply record, its JSON form, the confidence clamp and colour band, and the texts
  assembled for display and copying.
- `History` — the history entry, `loadHistory`'s accept/reject decision, prepend, delete by id
  and search.
- `Composer` — the form and page state, the prompt string, `handleGenerate` as one step over an
  abstract call outcome, and `handleClearAll`.
- `Options`, `Strings`, `Seqs` — `??`, the ECMAScript `trim`/`\s` whitespace set, `split`,
  `join`, `includes`, ASCII `toLowerCase`, and `filter` with its order-preserving specification.

Where the code and a plausible reading of it differ, the model follows the code:

- heading text is emitted raw; only list items and paragraphs are inline formatted;
- a line ending in a closing `**` yields a last, empty plain run (`Hello **world**` gives
  `Plain("Hello "), Bold("world"), Plain("")`);
- the extractor accepts arrays, since `typeof [] === 'object'`;
- the search lower-cases the query but does not trim it; only the blank test trims;
- a failed call with an empty `error` string shows that empty string, since `??` only replaces
  `null` and `undefined`.

## Model

| member | source | states |
|---|---|---|
| Extract.ExtractAgentData | app/page.tsx:49-67 | total; absent exactly when the final candidate is neither an array nor an object; otherwise that candidate, which is the parsed first candidate, its `result`, or the parse of the `text` of one of them and nothing deeper |
| Extract.ExtractPassesObjectThrough | app/page.tsx:54-66 | an object at `response.result` with no truthy object `result` and no string `text` is returned unchanged |
| Extract.ExtractAcceptsArray | app/page.tsx:65-66 | an array candidate is accepted unchanged |
| Extract.ExtractRejectsPrimitive | app/page.tsx:65 | a `null`, boolean or number candidate yields no reply |
| Extract.ExtractParsesString | app/page.tsx:51-53 | a string candidate whose parse is not itself a string behaves exactly as that parse sent unwrapped |
| Extract.ExtractParsesOnce | app/page.tsx:51-53 | a string candidate whose parse is again a string yields no reply: parsing happens once |
| Extract.ExtractDescendsOnce | app/page.tsx:54-56 | a truthy object `result` replaces the candidate once, whatever its own `result` holds |
| Extract.ExtractTextRule | app/page.tsx:57-64 | a string `text` replaces the candidate exactly when its parse is a truthy object with a falsy `error`; otherwise the candidate is kept |
| Extract.ExtractNeedsResponse | app/page.tsx:50 | without a `response.result` nothing is found |
| Json.TruthyObjectIsStructured | app/page.tsx:60 | a truthy value of type `object` is exactly an array or an object |
| Inline.CloseFrom | app/page.tsx:71 | the lazy group stops at the first `**` and fails when a line terminator comes first |
| Inline.FirstMatch | app/page.tsx:71 | the match found is the leftmost opening `**` that has a closing one, with the lazy closing |
| Inline.SplitBold | app/page.tsx:71 | an odd number of pieces that rejoin to the line with `**` around each odd piece; each odd piece holds neither `**` nor a line terminator and does not end in `*` (the lazy closing); every opening is the leftmost one with a closing pair after the previous match; the last piece has no complete pair |
| Inline.SplitUnique | app/page.tsx:71 | those properties determine the split: any pieces that have them are exactly what the split returns for the line they rejoin to |
| Inline.FlattenTag | app/page.tsx:73-81 | tagging pieces by index parity and flattening the runs rejoins the pieces |
| Inline.FormatInline | app/page.tsx:70-82 | one run per piece of the bold split, with that piece's text, bold exactly at odd indices; bold runs are clean lazy captures; the runs flatten back to the line |
| Inline.FormatInlineWithoutPair | app/page.tsx:71-72 | a line comes back as one plain run exactly when it holds no complete `**…**` pair |
| Markdown.DigitRun | app/page.tsx:113 | the length of the leading run of ASCII digits |
| Markdown.OrderedMarker | app/page.tsx:113-116 | the length of the `^\d+\.\s` prefix, present exactly when the pattern matches, and the only length it can match |
| Markdown.Render | app/page.tsx:84-88 | nothing for the empty text; otherwise one block per line break plus one, each the classification of its line, in order |
| Markdown.RenderConcat | app/page.tsx:88 | the blocks of two non-empty texts joined by a line break are the blocks of each, concatenated |
| Markdown.Classify | app/page.tsx:88-124 | the per-line rule: a heading has level 1 to 3; an unordered item comes only from a line starting with `- ` or `* `; a spacer only from a whitespace-only line; a paragraph only from a line with a non-space |
| Markdown.ClassifyHeading | app/page.tsx:89-106 | a line is a heading exactly when it starts with `### `, `## ` or `# `; level 3, 2, 1 in that order; the marker is stripped and the text kept raw |
| Markdown.ClassifyUnordered | app/page.tsx:107-112 | an unordered item exactly when the line starts with `- ` or `* `, formatted after those two characters |
| Markdown.ClassifyOrdered | app/page.tsx:113-118 | an ordered item exactly when the marker pattern matches, formatted after exactly the matched prefix |
| Markdown.ClassifySpacer | app/page.tsx:119 | a spacer exactly when the line is whitespace only |
| Markdown.ClassifyParagraph | app/page.tsx:120-124 | a paragraph exactly when no earlier rule applies, formatting the whole line |
| Markdown.ClassifyExample | app/page.tsx:88-124 | the lines `### Hi`, `- a`, `- b`, the empty line and `Hello **world**` become a level-3 heading with raw text, two single-run items, a spacer, and a paragraph of a plain, a bold and an empty plain run |
| Markdown.RenderExample | app/page.tsx:88-124 | the text `### Hi`, `- a`, `- b`, an empty line, `Hello **world**` joined by line breaks renders as five blocks: the heading, the two items, the spacer and the paragraph |
| Markdown.FormatInlineExample | app/page.tsx:71-81 | `Hello **world**` gives a plain, a bold and an empty plain run |
| Strings.Trim | app/page.tsx:119 | the result is a slice of the input with only whitespace cut before and after it; it is empty exactly when the input is whitespace only, and otherwise starts and ends with a non-space |
| Strings.Split | app/page.tsx:88 | one piece per separator plus one, none holding the separator, joining back to the input |
| Strings.SplitConcat | app/page.tsx:88 | the pieces of `a + sep + b` are the pieces of `a` followed by those of `b` |
| Strings.SplitJoin | app/page.tsx:88 | one or more pieces without the separator, joined with it, split back into the same pieces |
| Reply.FromJson | app/page.tsx:23-33 | each reply field is present exactly when the extracted value holds a value of that field's declared type under its JSON name, and then holds that value |
| Reply.JsonRoundTrip | app/page.tsx:23-33 | a reply written as a JSON object and read back is unchanged, absent fields staying absent |
| Reply.SafeScore | app/page.tsx:214 | a missing score shows as 0; every score is clamped into [0, 100]; in-range scores are kept |
| Reply.SafeScoreMonotone | app/page.tsx:214 | clamping preserves the order of scores |
| Reply.SafeScoreIdempotent | app/page.tsx:214 | a clamped score is already in range: clamping it again changes nothing |
| Reply.ScoreBand | app/page.tsx:215-219 | green from 80, yellow from 60 below 80, red below 60 |
| Reply.ScoreBandMonotone | app/page.tsx:215-219 | a higher score never gets a worse colour |
| Reply.FullReplyText | app/page.tsx:532-540 | empty without a reply; otherwise greeting, shown body, closing and signature separated by blank lines, absent parts empty |
| Reply.CopyReplyText | app/page.tsx:475-488 | nothing without a reply; otherwise the trimmed display text, preceded by `Subject: …` and a blank line only when the subject is non-empty |
| Reply.HistoryCopyText | app/page.tsx:258-266 | the display text of the stored reply, unedited and untrimmed |
| History.LoadHistory | app/page.tsx:193-203 | empty unless in a browser with a non-empty stored value that parses to an array, and then that array's items |
| History.Prepend | app/page.tsx:457 | the new entry in front of the unchanged history |
| History.PrependOrder | app/page.tsx:457 | two entries added in turn come out newest first |
| History.Delete | app/page.tsx:515 | no entry with the id remains; every other entry stays, with its multiplicity, in order |
| History.DeleteAbsent | app/page.tsx:515 | deleting an id no entry has changes nothing |
| History.DeleteIdempotent | app/page.tsx:515 | deleting twice is deleting once |
| History.Search | app/page.tsx:521-529 | a blank query keeps everything; otherwise exactly the entries whose email, subject or intent contains the lower-cased query, in order, with multiplicity |
| History.SearchNoMatch | app/page.tsx:521-529 | a query no entry matches shows nothing |
| History.SearchAbsentFields | app/page.tsx:525-527 | absent subject and intent never match |
| Composer.OrNotProvided | app/page.tsx:434 | an empty sender detail reads "Not provided" |
| Composer.Prompt | app/page.tsx:434 | the template's four sections separated by blank lines: the original email; the sender's name, designation and company, each "Not provided" when blank; tone and length; and the context line, empty without notes |
| Composer.ContextLine | app/page.tsx:434 | nothing for empty notes; otherwise the `Additional Context: ` label followed by the notes |
| Composer.PromptContext | app/page.tsx:434 | notes only append: the prompt with notes is the prompt without them plus the context line |
| Composer.PromptDependsOnForm | app/page.tsx:434 | the prompt depends only on the email, the displayed sender details, tone, length and notes |
| Composer.NewEntry | app/page.tsx:445-456 | the recorded entry carries the given id and timestamp, the whole form unchanged, and the reply read from the extracted data |
| Composer.Generate | app/page.tsx:424-472 | a blank email only sets a message; otherwise loading and the active agent are cleared afterwards; the form is untouched; the history changes only by one entry at its front |
| Composer.Settle | app/page.tsx:436-471 | whatever the call's outcome, loading and the active agent end cleared, the form and edit buffer are untouched, and the history is kept or grows by one entry at its front |
| Composer.GenerateBlankMakesNoCall | app/page.tsx:425-428 | with a blank email the call outcome cannot matter |
| Composer.GenerateSuccess | app/page.tsx:440-459 | success with an extracted reply shows it, clears the message and prepends the new entry |
| Composer.GenerateUnparsable | app/page.tsx:460-462 | success without an extracted reply sets the parse message and records nothing |
| Composer.GenerateFailure | app/page.tsx:463-465 | a reported failure shows its error, or the default message when it has none, and records nothing |
| Composer.GenerateThrows | app/page.tsx:466-467 | a thrown call shows the network message and records nothing |
| Composer.ClearAll | app/page.tsx:498-511 | the form back to its initial defaults, reply, edit buffer, message, editing and sample cleared; history and loading kept |
| Composer.ClearAllIdempotent | app/page.tsx:498-511 | clearing twice is clearing once |
| Composer.GenerateAfterClearAll | app/page.tsx:425-428 | generating right after clearing only asks for an email |

## Left out

- The view: JSX, CSS classes, layout, icons, the `ErrorBoundary` component and the sample-data toggle with its fixed sample email and reply.
- The lenient parser behind `parseLLMJson` is not part of this model; it is the parameter `parse`, so nothing is claimed about brace-span extraction or code-fence stripping.
- The agent call, the clipboard and browser storage are I/O: the call's outcome is a parameter of `Generate`, `JSON.parse` a parameter of `LoadHistory`, and writing the history back (`saveHistory`) and the clipboard write are not modelled.
- History.LoadHistory: returns the stored array's items as JSON values, unchecked, as the page does; the typed entries elsewhere assume stored entries are well formed.
- Fresh ids (`Date.now`, `Math.random`), timestamps (`toISOString`), date formatting (`toLocaleDateString`) and the copy-feedback timers are nondeterministic or locale-dependent; id and timestamp are parameters.
- React hook sequencing (the effect that copies a new reply's body into the edit buffer, the sample-data effect), the suspension inside `handleGenerate` and the unguarded second click while a call is in flight: each handler is one atomic step.
- Reply.FromJson: a reply field holding a JSON value of the wrong type reads as absent; the page would coerce it to text when joining or fail on `toLowerCase`.
- Strings.ToLower: lower-cases ASCII letters only, not the full Unicode case mapping.
- Reply.SafeScore: scores are reals; `NaN` and infinities are not modelled.
- JavaScript `undefined` and `null` are one value (`Null`); every test the page applies treats them alike.
- View-only state (sidebar, active view, expanded history card, copy feedback, context panel) is not modelled; the search query is a parameter of `Search` rather than a state field.

=== FILE: composer.dfy ===
/** The composer page's state and its handlers, each taken as one atomic step: generating a reply
    (with the agent call, the lenient parser, the fresh id and the clock as parameters) and
    clearing the form. */
module Composer {
  import opened Options
  import opened Strings
  import opened Json
  import Extract
  import opened Reply
  import opened History

  const AgentId: string := "69996a0682d9195c9e524bc5"
  const EmptyEmailMessage: string := "Please paste an email to generate a reply."
  const UnparsableMessage: string := "Could not parse the agent response. Please try again."
  const DefaultFailureMessage: string := "Failed to generate reply. Please try again."
  const NetworkMessage: string := "Network error. Please check your connection and try again."
  const NotProvided: string := "Not provided"

  /** The composer form. */
  datatype Form = Form(
    originalEmail: string,
    senderName: string,
    designation: string,
    companyName: string,
    tone: string,
    length: string,
    contextNotes: string)

  /** The form as the page first shows it, and as clearing leaves it. */
  const DefaultForm: Form := Form("", "", "", "", "Formal", "Medium", "")

  /** The page state the handlers read and write. */
  datatype Session = Session(
    form: Form,
    history: seq<HistoryEntry>,
    loading: bool,
    errorMsg: string,
    agentResponse: Option<EmailReply>,
    activeAgentId: Option<string>,
    editableBody: string,
    isEditing: bool,
    showSample: bool)

  /** The state on mount, once the stored history has been read. */
  function InitialSession(history: seq<HistoryEntry>): Session {
    Session(DefaultForm, history, false, "", None, None, "", false, false)
  }

  /** How the agent call ended: it threw, it reported failure (with an optional error message),
      or it succeeded with the given call result. */
  datatype CallOutcome = Throws | Fail(error: Option<string>) | Ok(result: JsonValue)

  /** `value || 'Not provided'`. */
  function OrNotProvided(value: string): (r: string)
    ensures value != "" ==> r == value
    ensures value == "" ==> r == NotProvided
  {
    if value == "" then NotProvided else value
  }

  /** The message sent to the agent, the page's template: the original email first, then the
      sender details (blank ones shown as "Not provided"), the reply preferences, and the
      additional context only when there is some. Read as a document, it is four sections
      separated by blank lines, the last one empty without notes. */
  function Prompt(f: Form): (m: string)
    ensures m == Join([
      "Original Email:\n" + f.originalEmail,
      "Sender Details:\n- Name: " + OrNotProvided(f.senderName) + "\n- Designation: " + OrNotProvided(f.designation)
        + "\n- Company: " + OrNotProvided(f.companyName),
      "Reply Preferences:\n- Tone: " + f.tone + "\n- Length: " + f.length,
      ContextLine(f.contextNotes)], "\n\n")
  {
    var n, d, c := OrNotProvided(f.senderName), OrNotProvided(f.designation), OrNotProvided(f.companyName);
    TemplateSections(f.originalEmail, n, d, c, f.tone, f.length, ContextLine(f.contextNotes));
    "Original Email:\n" + f.originalEmail + "\n\nSender Details:\n- Name: " + n + "\n- Designation: " + d
      + "\n- Company: " + c + "\n\nReply Preferences:\n- Tone: " + f.tone + "\n- Length: " + f.length + "\n\n"
      + ContextLine(f.contextNotes)
  }

  /** The template literal, filled in, is its four sections joined by blank lines. */
  lemma TemplateSections(e: string, n: string, d: string, c: string, t: string, l: string, ctx: string)
    ensures "Original Email:\n" + e + "\n\nSender Details:\n- Name: " + n + "\n- Designation: " + d
      + "\n- Company: " + c + "\n\nReply Preferences:\n- Tone: " + t + "\n- Length: " + l + "\n\n" + ctx
      == Join(["Original Email:\n" + e, "Sender Details:\n- Name: " + n + "\n- Designation: " + d + "\n- Company: " + c,
               "Reply Preferences:\n- Tone: " + t + "\n- Length: " + l, ctx], "\n\n")
  {
    assert "\n\nSender Details:\n- Name: " == "\n\n" + "Sender Details:\n- Name: ";
    assert "\n\nReply Preferences:\n- Tone: " == "\n\n" + "Reply Preferences:\n- Tone: ";
    Regroup("Original Email:\n", e, "\n\n", "Sender Details:\n- Name: ", n, "\n- Designation: ", d,
      "\n- Company: ", c, "Reply Preferences:\n- Tone: ", t, "\n- Length: ", l, ctx);
    JoinFour("Original Email:\n" + e, "Sender Details:\n- Name: " + n + "\n- Designation: " + d + "\n- Company: " + c,
      "Reply Preferences:\n- Tone: " + t + "\n- Length: " + l, ctx, "\n\n");
  }

  /** The template's left-to-right concatenation, regrouped section by section. */
  lemma Regroup(h1: string, e: string, s: string, h2: string, n: string, h3: string, d: string, h4: string,
                c: string, h5: string, t: string, h6: string, l: string, x: string)
    ensures h1 + e + (s + h2) + n + h3 + d + h4 + c + (s + h5) + t + h6 + l + s + x
      == (h1 + e) + s + ((h2 + n + h3 + d + h4 + c) + s + ((h5 + t + h6 + l) + s + x))
  {
  }

  /** Four pieces joined are the pieces with the separator between each two. */
  lemma JoinFour(a: string, b: string, c: string, d: string, sep: string)
    ensures Join([a, b, c, d], sep) == a + sep + (b + sep + (c + sep + d))
  {
    var parts := [a, b, c, d];
    JoinStep(parts, sep);
    JoinStep(parts[1..], sep);
    JoinStep(parts[2..], sep);
    assert parts[1..][1..] == parts[2..] && parts[2..][1..] == [d];
  }

  /** The template's last line: the notes behind their label, or nothing. */
  function ContextLine(notes: string): (line: string)
    ensures notes == "" ==> line == ""
    ensures notes != "" ==>
      StartsWith(line, "Additional Context: ") && EndsWith(line, notes) && |line| == |"Additional Context: "| + |notes|
  {
    if notes != "" then
      StartsWithConcat("Additional Context: ", notes);
      EndsWithConcat("Additional Context: ", notes);
      "Additional Context: " + notes
    else ""
  }

  /** The context goes last and changes nothing before it: the prompt with notes is the prompt
      without them followed by the `Additional Context` line. */
  lemma PromptContext(f: Form)
    requires f.contextNotes != ""
    ensures Prompt(f) == Prompt(f.(contextNotes := "")) + "Additional Context: " + f.contextNotes
  {
  }

  /** Only the sender details, the preferences and the email reach the prompt: two forms that
      agree on them give the same prompt. */
  lemma PromptDependsOnForm(f: Form, g: Form)
    requires f.originalEmail == g.originalEmail && f.tone == g.tone && f.length == g.length
    requires f.contextNotes == g.contextNotes
    requires OrNotProvided(f.senderName) == OrNotProvided(g.senderName)
    requires OrNotProvided(f.designation) == OrNotProvided(g.designation)
    requires OrNotProvided(f.companyName) == OrNotProvided(g.companyName)
    ensures Prompt(f) == Prompt(g)
  {
  }

  /** The form an entry was generated from, as the entry stores it. */
  function EntryForm(e: HistoryEntry): Form {
    Form(e.originalEmail, e.senderName, e.designation, e.companyName, e.tone, e.length, e.contextNotes)
  }

  /** The history entry a successful generate records: the id and timestamp it is given, the
      whole form as it was, and the reply read from the extracted data. */
  function NewEntry(f: Form, id: string, timestamp: string, data: JsonValue): (e: HistoryEntry)
    ensures e.id == id && e.timestamp == timestamp
    ensures EntryForm(e) == f
    ensures e.response == FromJson(data)
  {
    HistoryEntry(id, timestamp, f.originalEmail, f.senderName, f.designation, f.companyName, f.tone, f.length,
      f.contextNotes, FromJson(data))
  }

  /** `handleGenerate` as one step. A blank email only sets a message. Otherwise the agent is
      called with the prompt and, however the call ends, loading and the active agent are
      cleared afterwards; the form is never touched, and the history changes only by the new
      entry at its front. */
  function Generate(st: Session, call: string -> CallOutcome, parse: string -> JsonValue, id: string, timestamp: string): (r: Session)
    ensures AllWhitespace(st.form.originalEmail) ==> r == st.(errorMsg := EmptyEmailMessage)
    ensures !AllWhitespace(st.form.originalEmail) ==> !r.loading && r.activeAgentId.None?
    ensures r.form == st.form && r.editableBody == st.editableBody && r.isEditing == st.isEditing
    ensures r.history == st.history || (|r.history| == |st.history| + 1 && r.history[1..] == st.history)
  {
    if Trim(st.form.originalEmail) == "" then
      st.(errorMsg := EmptyEmailMessage)
    else
      var started := st.(loading := true, errorMsg := "", agentResponse := None, activeAgentId := Some(AgentId));
      Settle(started, call(Prompt(st.form)), parse, id, timestamp)
  }

  /** What `handleGenerate` does once the call has ended, from the state it set before the call:
      the outcome decides the message, the reply and the new entry, and the `finally` clears
      loading and the active agent. */
  function Settle(started: Session, outcome: CallOutcome, parse: string -> JsonValue, id: string, timestamp: string): (r: Session)
    ensures !r.loading && r.activeAgentId.None?
    ensures r.form == started.form && r.editableBody == started.editableBody && r.isEditing == started.isEditing
    ensures r.history == started.history || (|r.history| == |started.history| + 1 && r.history[1..] == started.history)
  {
    var settled := started.(loading := false, activeAgentId := None);
    match outcome
    case Throws => settled.(errorMsg := NetworkMessage)
    case Fail(error) => settled.(errorMsg := error.GetOr(DefaultFailureMessage))
    case Ok(result) =>
      match Extract.ExtractAgentData(result, parse)
      case None => settled.(errorMsg := UnparsableMessage)
      case Some(data) =>
        settled.(agentResponse := Some(FromJson(data)), history := Prepend(started.history, NewEntry(started.form, id, timestamp, data)))
  }

  /** A blank email makes no call: the outcome of the call cannot matter. */
  lemma GenerateBlankMakesNoCall(st: Session, call1: string -> CallOutcome, call2: string -> CallOutcome,
                                 parse: string -> JsonValue, id: string, timestamp: string)
    requires AllWhitespace(st.form.originalEmail)
    ensures Generate(st, call1, parse, id, timestamp) == Generate(st, call2, parse, id, timestamp)
  {
  }

  /** A successful call whose response yields a reply shows that reply, clears the message and
      records a new entry at the front of the history. */
  lemma GenerateSuccess(st: Session, call: string -> CallOutcome, parse: string -> JsonValue, id: string,
                        timestamp: string, result: JsonValue, data: JsonValue)
    requires !AllWhitespace(st.form.originalEmail)
    requires call(Prompt(st.form)) == Ok(result)
    requires Extract.ExtractAgentData(result, parse) == Some(data)
    ensures Generate(st, call, parse, id, timestamp).history == [NewEntry(st.form, id, timestamp, data)] + st.history
    ensures Generate(st, call, parse, id, timestamp).agentResponse == Some(FromJson(data))
    ensures Generate(st, call, parse, id, timestamp).errorMsg == ""
  {
  }

  /** A successful call whose response yields nothing sets the parse message and records nothing. */
  lemma GenerateUnparsable(st: Session, call: string -> CallOutcome, parse: string -> JsonValue, id: string,
                           timestamp: string, result: JsonValue)
    requires !AllWhitespace(st.form.originalEmail)
    requires call(Prompt(st.form)) == Ok(result)
    requires Extract.ExtractAgentData(result, parse) == None
    ensures Generate(st, call, parse, id, timestamp).history == st.history
    ensures Generate(st, call, parse, id, timestamp).agentResponse == None
    ensures Generate(st, call, parse, id, timestamp).errorMsg == UnparsableMessage
  {
  }

  /** A call that reports failure shows its own error when it has one (even an empty one) and the
      default message otherwise, and records nothing. */
  lemma GenerateFailure(st: Session, call: string -> CallOutcome, parse: string -> JsonValue, id: string,
                        timestamp: string, error: Option<string>)
    requires !AllWhitespace(st.form.originalEmail)
    requires call(Prompt(st.form)) == Fail(error)
    ensures Generate(st, call, parse, id, timestamp).history == st.history
    ensures Generate(st, call, parse, id, timestamp).agentResponse == None
    ensures Generate(st, call, parse, id, timestamp).errorMsg == if error.Some? then error.value else DefaultFailureMessage
  {
  }

  /** A call that throws shows the network message and records nothing. */
  lemma GenerateThrows(st: Session, call: string -> CallOutcome, parse: string -> JsonValue, id: string,
                       timestamp: string)
    requires !AllWhitespace(st.form.originalEmail)
    requires call(Prompt(st.form)) == Throws
    ensures Generate(st, call, parse, id, timestamp).history == st.history
    ensures Generate(st, call, parse, id, timestamp).agentResponse == None
    ensures Generate(st, call, parse, id, timestamp).errorMsg == NetworkMessage
  {
  }

  /** `handleClearAll`: the form back to its defaults, the reply, edit buffer, message, editing
      mode and sample toggle cleared; the history and the loading flag are left alone. */
  function ClearAll(st: Session): (r: Session)
    ensures r.form == DefaultForm
    ensures r.history == st.history && r.loading == st.loading && r.activeAgentId == st.activeAgentId
    ensures r.agentResponse.None? && r.editableBody == "" && r.errorMsg == "" && !r.isEditing && !r.showSample
  {
    st.(form := DefaultForm, agentResponse := None, editableBody := "", errorMsg := "", isEditing := false,
      showSample := false)
  }

  lemma ClearAllIdempotent(st: Session)
    ensures ClearAll(ClearAll(st)) == ClearAll(st)
  {
  }

  /** After clearing, generating only asks for an email: no call is made and nothing is recorded. */
  lemma GenerateAfterClearAll(st: Session, call: string -> CallOutcome, parse: string -> JsonValue, id: string,
                              timestamp: string)
    ensures Generate(ClearAll(st), call, parse, id, timestamp) == ClearAll(st).(errorMsg := EmptyEmailMessage)
  {
  }
}

=== FILE: extract.dfy ===
/** The response-shape normaliser: an ordered chain of shape tests that looks for the reply record
    inside whatever the agent service returned. The lenient JSON parser the page imports is not
    part of this model; it is the parameter `parse`, an arbitrary total function. */
module Extract {
  import opened Options
  import opened Json

  /** `result?.response?.result`: the first candidate. */
  function ResponseResult(result: JsonValue): JsonValue {
    Get(Get(result, "response"), "result")
  }

  /** The value whose `response.result` is `v`: the shape the agent service nominally sends. */
  function Wrap(v: JsonValue): (w: JsonValue)
    ensures ResponseResult(w) == v
  {
    Obj(map["response" := Obj(map["result" := v])])
  }

  /** Step 1: a string candidate is replaced by what the lenient parser makes of it. */
  function ParseIfString(data: JsonValue, parse: string -> JsonValue): JsonValue {
    if data.Str? then parse(data.s) else data
  }

  /** Step 2: a truthy object-typed `result` property replaces the candidate, once. */
  function DescendResult(data: JsonValue): JsonValue {
    var inner := Get(data, "result");
    if Truthy(inner) && IsObjectType(inner) then inner else data
  }

  /** The test a parsed `text` property must pass to be adopted: a truthy object whose `error`
      property is falsy. */
  predicate Adoptable(parsed: JsonValue) {
    Truthy(parsed) && IsObjectType(parsed) && !Truthy(Get(parsed, "error"))
  }

  /** Step 3: a string `text` property is parsed, and the parse adopted when `Adoptable`. */
  function PreferText(data: JsonValue, parse: string -> JsonValue): JsonValue {
    var text := Get(data, "text");
    if text.Str? && Adoptable(parse(text.s)) then parse(text.s) else data
  }

  /** The candidate left after the three steps. */
  function FinalCandidate(result: JsonValue, parse: string -> JsonValue): JsonValue {
    PreferText(DescendResult(ParseIfString(ResponseResult(result), parse)), parse)
  }

  /** The values the extractor may hand back: the (parsed) first candidate, its `result` property,
      or the parse of the `text` property of either. Nothing deeper is ever reached. */
  ghost predicate Reachable(v: JsonValue, result: JsonValue, parse: string -> JsonValue) {
    var c := ParseIfString(ResponseResult(result), parse);
    var inner := Get(c, "result");
    || v == c
    || v == inner
    || (Get(c, "text").Str? && v == parse(Get(c, "text").s))
    || (Get(inner, "text").Str? && v == parse(Get(inner, "text").s))
  }

  /** `extractAgentData`: total; the answer is absent exactly when the final candidate is not an
      array or object (a falsy value or a primitive), and otherwise it is that candidate, which
      is one of the `Reachable` values. Arrays are accepted, as `typeof [] === 'object'`. */
  function ExtractAgentData(result: JsonValue, parse: string -> JsonValue): (r: Option<JsonValue>)
    ensures r.None? <==> !(FinalCandidate(result, parse).Arr? || FinalCandidate(result, parse).Obj?)
    ensures r.Some? ==> r.value == FinalCandidate(result, parse)
    ensures r.Some? ==> (r.value.Arr? || r.value.Obj?) && Reachable(r.value, result, parse)
  {
    var data := FinalCandidate(result, parse);
    if !Truthy(data) || !IsObjectType(data) then None else Some(data)
  }

  /** An object with no truthy object-typed `result` and no string `text` is handed back as is. */
  lemma ExtractPassesObjectThrough(result: JsonValue, parse: string -> JsonValue)
    requires ResponseResult(result).Obj?
    requires !(Truthy(Get(ResponseResult(result), "result")) && IsObjectType(Get(ResponseResult(result), "result")))
    requires !Get(ResponseResult(result), "text").Str?
    ensures ExtractAgentData(result, parse) == Some(ResponseResult(result))
  {
  }

  /** An array candidate is accepted unchanged: arrays have no `result` or `text` property and
      pass the final `typeof` test. */
  lemma ExtractAcceptsArray(result: JsonValue, parse: string -> JsonValue)
    requires ResponseResult(result).Arr?
    ensures ExtractAgentData(result, parse) == Some(ResponseResult(result))
  {
  }

  /** A candidate that is `null`, a boolean or a number is never accepted. */
  lemma ExtractRejectsPrimitive(result: JsonValue, parse: string -> JsonValue)
    requires var c := ResponseResult(result); c.Null? || c.Bool? || c.Num?
    ensures ExtractAgentData(result, parse) == None
  {
  }

  /** A string candidate whose parse is not itself a string behaves as that parse would have
      behaved had it been sent unwrapped. */
  lemma ExtractParsesString(result: JsonValue, parse: string -> JsonValue)
    requires ResponseResult(result).Str?
    requires !parse(ResponseResult(result).s).Str?
    ensures ExtractAgentData(result, parse) == ExtractAgentData(Wrap(parse(ResponseResult(result).s)), parse)
  {
  }

  /** ... and is parsed only once: a parse that yields a string again is rejected. */
  lemma ExtractParsesOnce(result: JsonValue, parse: string -> JsonValue)
    requires ResponseResult(result).Str?
    requires parse(ResponseResult(result).s).Str?
    ensures ExtractAgentData(result, parse) == None
  {
  }

  /** The extractor descends into `result` at most once: a candidate whose `result` is a truthy
      object (with no string `text`) yields that inner value, whatever the inner value's own
      `result` property holds. */
  lemma ExtractDescendsOnce(result: JsonValue, parse: string -> JsonValue)
    requires !ResponseResult(result).Str?
    requires var inner := Get(ResponseResult(result), "result"); inner.Arr? || inner.Obj?
    requires !Get(Get(ResponseResult(result), "result"), "text").Str?
    ensures ExtractAgentData(result, parse) == Some(Get(ResponseResult(result), "result"))
  {
  }

  /** A string `text` property replaces the candidate exactly when its parse is a truthy object with
      a falsy `error`; otherwise the candidate (an object, since it has a property) is kept. */
  lemma ExtractTextRule(result: JsonValue, parse: string -> JsonValue, t: string)
    requires !ResponseResult(result).Str?
    requires !(Truthy(Get(ResponseResult(result), "result")) && IsObjectType(Get(ResponseResult(result), "result")))
    requires Get(ResponseResult(result), "text") == Str(t)
    ensures Adoptable(parse(t)) ==> ExtractAgentData(result, parse) == Some(parse(t))
    ensures !Adoptable(parse(t)) ==> ExtractAgentData(result, parse) == Some(ResponseResult(result))
  {
  }

  /** When the response is not shaped `{response: {result: …}}` at all, nothing is found. */
  lemma ExtractNeedsResponse(result: JsonValue, parse: string -> JsonValue)
    requires ResponseResult(result) == Null
    ensures ExtractAgentData(result, parse) == None
  {
  }
}

=== FILE: history.dfy ===
/** The reply history: a newest-first list of past replies, persisted as one JSON array. */
module History {
  import opened Options
  import opened Strings
  import opened Seqs
  import opened Json
  import opened Reply

  /** One generated reply, with a snapshot of the form it was generated from. */
  datatype HistoryEntry = HistoryEntry(
    id: string,
    timestamp: string,
    originalEmail: string,
    senderName: string,
    designation: string,
    companyName: string,
    tone: string,
    length: string,
    contextNotes: string,
    response: EmailReply)

  /** `loadHistory`'s decision over what storage holds. `inBrowser` is false during server
      rendering; `stored` is the value under the history key; `parseJson` is `JSON.parse`, with
      `None` for a parse that throws. The parsed array is returned unchecked. */
  function LoadHistory(inBrowser: bool, stored: Option<string>, parseJson: string -> Option<JsonValue>): (r: seq<JsonValue>)
    ensures r != [] ==> inBrowser && stored.Some? && stored.value != "" && parseJson(stored.value) == Some(Arr(r))
    ensures inBrowser && stored.Some? && stored.value != "" && parseJson(stored.value).Some? ==>
      r == (match parseJson(stored.value).value case Arr(items) => items case _ => [])
  {
    if !inBrowser then []
    else match stored
      case None => []
      case Some(raw) =>
        if raw == "" then []
        else match parseJson(raw)
          case None => []
          case Some(parsed) => if parsed.Arr? then parsed.items else []
  }

  /** A successful generate puts its entry at the front: newest first. */
  function Prepend(history: seq<HistoryEntry>, entry: HistoryEntry): (r: seq<HistoryEntry>)
    ensures |r| == |history| + 1 && r[0] == entry && r[1..] == history
  {
    [entry] + history
  }

  /** Two entries added one after the other come out newest first. */
  lemma PrependOrder(history: seq<HistoryEntry>, e1: HistoryEntry, e2: HistoryEntry)
    ensures Prepend(Prepend(history, e1), e2) == [e2, e1] + history
  {
  }

  function HasOtherId(id: string): HistoryEntry -> bool {
    (e: HistoryEntry) => e.id != id
  }

  /** `handleDeleteHistory`: every entry with the id goes, every other entry stays, with its
      multiplicity and in its original order. */
  function Delete(history: seq<HistoryEntry>, id: string): (r: seq<HistoryEntry>)
    ensures forall i :: 0 <= i < |r| ==> r[i].id != id
    ensures IsSubsequence(r, history)
    ensures forall e :: multiset(r)[e] == if e.id != id then multiset(history)[e] else 0
  {
    Filter(history, HasOtherId(id))
  }

  /** Deleting an id that no entry has changes nothing. */
  lemma DeleteAbsent(history: seq<HistoryEntry>, id: string)
    requires forall i :: 0 <= i < |history| ==> history[i].id != id
    ensures Delete(history, id) == history
  {
    FilterAll(history, HasOtherId(id));
  }

  /** Deleting is idempotent. */
  lemma DeleteIdempotent(history: seq<HistoryEntry>, id: string)
    ensures Delete(Delete(history, id), id) == Delete(history, id)
  {
    DeleteAbsent(Delete(history, id), id);
  }

  /** `Some(field)` lower-cased contains `q`; an absent field never matches. */
  predicate FieldMatches(field: Option<string>, q: string) {
    field.Some? && Contains(ToLower(field.value), q)
  }

  /** The search test for a lower-cased query: the original email, the subject line or the
      detected intent contains it, ignoring case. */
  predicate Matches(e: HistoryEntry, q: string) {
    Contains(ToLower(e.originalEmail), q) || FieldMatches(e.response.subjectLine, q) || FieldMatches(e.response.detectedIntent, q)
  }

  /** The callback `filteredHistory` hands to `filter`. */
  function SearchTest(query: string): HistoryEntry -> bool {
    (e: HistoryEntry) => Trim(query) == "" || Matches(e, ToLower(query))
  }

  /** `filteredHistory`: a query that is blank after trimming shows the whole history; otherwise
      the entries matching the lower-cased (untrimmed) query are shown, in order. */
  function Search(history: seq<HistoryEntry>, query: string): (r: seq<HistoryEntry>)
    ensures AllWhitespace(query) ==> r == history
    ensures !AllWhitespace(query) ==> IsSubsequence(r, history)
    ensures !AllWhitespace(query) ==> forall i :: 0 <= i < |r| ==> Matches(r[i], ToLower(query))
    ensures !AllWhitespace(query) ==>
      forall e :: multiset(r)[e] == if Matches(e, ToLower(query)) then multiset(history)[e] else 0
  {
    SearchFilter(history, query);
    Filter(history, SearchTest(query))
  }

  /** The filter with the search test: everything for a blank query, else the matching entries. */
  lemma SearchFilter(history: seq<HistoryEntry>, query: string)
    ensures AllWhitespace(query) ==> Filter(history, SearchTest(query)) == history
    ensures !AllWhitespace(query) ==> forall e :: SearchTest(query)(e) == Matches(e, ToLower(query))
  {
    if AllWhitespace(query) {
      FilterAll(history, SearchTest(query));
    }
  }

  /** A query that matches no entry shows nothing. */
  lemma SearchNoMatch(history: seq<HistoryEntry>, query: string)
    requires !AllWhitespace(query)
    requires forall i :: 0 <= i < |history| ==> !Matches(history[i], ToLower(query))
    ensures Search(history, query) == []
  {
    FilterNone(history, SearchTest(query));
  }

  /** An entry whose subject line and intent are absent is found only through its original
      email. */
  lemma SearchAbsentFields(e: HistoryEntry, query: string)
    requires e.response.subjectLine.None? && e.response.detectedIntent.None?
    ensures Matches(e, ToLower(query)) <==> Contains(ToLower(e.originalEmail), ToLower(query))
  {
  }
}

=== FILE: inline.dfy ===
/** Inline bold emphasis: a line is split on `**…**` pairs the way a global split on the regular
    expression "two asterisks, a lazy group of any characters but line terminators, two asterisks"
    splits it, and the pieces alternate plain, bold, plain, … */
module Inline {
  import opened Options

  datatype Run = Plain(text: string) | Bold(text: string)

  /** The characters the regular expression `.` refuses to match. */
  predicate IsLineTerminator(c: char) {
    var n := c as int;
    n == 0x0A || n == 0x0D || n == 0x2028 || n == 0x2029
  }

  predicate NoTerminator(s: string) {
    forall i :: 0 <= i < |s| ==> !IsLineTerminator(s[i])
  }

  /** A `**` delimiter starts at position `i` of `s`. */
  predicate DelimAt(s: string, i: int) {
    0 <= i && i + 2 <= |s| && s[i] == '*' && s[i + 1] == '*'
  }

  /** No `**` occurs anywhere in `s`. */
  predicate NoDelim(s: string) {
    forall k :: 0 <= k < |s| ==> !DelimAt(s, k)
  }

  /** `s` has an opening `**` at `q` and a closing `**` at `j`, with only characters that `.`
      accepts between them: the pattern can match there. */
  predicate PairAt(s: string, q: int, j: int) {
    0 <= q && q + 2 <= j && DelimAt(s, q) && DelimAt(s, j) && NoTerminator(s[q + 2..j])
  }

  /** `s` holds at least one complete `**…**` pair. */
  ghost predicate HasBoldPair(s: string) {
    exists q, j :: PairAt(s, q, j)
  }

  /** Where the lazy group `(.*?)` started at `from` stops: at the first `**`, provided no line
      terminator comes before it. */
  function CloseFrom(s: string, from: nat): (r: Option<nat>)
    requires from <= |s|
    ensures r.Some? ==> from <= r.value && DelimAt(s, r.value) && NoTerminator(s[from..r.value])
    ensures r.Some? ==> forall k :: from <= k < r.value ==> !DelimAt(s, k)
    ensures r.None? ==> forall j :: from <= j && DelimAt(s, j) ==> !NoTerminator(s[from..j])
    decreases |s| - from
  {
    if from + 2 > |s| then None
    else if DelimAt(s, from) then
      assert s[from..from] == [];
      Some(from)
    else if IsLineTerminator(s[from]) then
      assert forall j :: from < j <= |s| ==> s[from..j][0] == s[from];
      None
    else
      var r := CloseFrom(s, from + 1);
      assert forall j :: from + 1 <= j <= |s| ==> s[from..j] == [s[from]] + s[from + 1..j];
      r
  }

  /** The leftmost position at or after `from` where the pattern matches, with its closing
      delimiter. */
  function FirstMatch(s: string, from: nat): (r: Option<(nat, nat)>)
    requires from <= |s|
    ensures r.Some? ==> from <= r.value.0 && PairAt(s, r.value.0, r.value.1)
    ensures r.Some? ==> forall k :: r.value.0 + 2 <= k < r.value.1 ==> !DelimAt(s, k)
    ensures r.Some? ==> forall q, j :: from <= q < r.value.0 ==> !PairAt(s, q, j)
    ensures r.None? ==> forall q, j :: from <= q ==> !PairAt(s, q, j)
    decreases |s| - from
  {
    if from == |s| then None
    else if DelimAt(s, from) && CloseFrom(s, from + 2).Some? then
      Some((from, CloseFrom(s, from + 2).value))
    else
      FirstMatch(s, from + 1)
  }

  /** The inverse of the split: the pieces put back together with `**` around each odd one. */
  function Rejoin(parts: seq<string>): string
    requires |parts| % 2 == 1
    decreases |parts|
  {
    if |parts| == 1 then parts[0] else parts[0] + "**" + parts[1] + "**" + Rejoin(parts[2..])
  }

  lemma RejoinCons(a: string, b: string, rest: seq<string>)
    requires |rest| % 2 == 1
    ensures Rejoin([a, b] + rest) == a + "**" + b + "**" + Rejoin(rest)
  {
    assert ([a, b] + rest)[2..] == rest;
  }

  /** What a capture of the lazy group can be: no `**` and no line terminator inside, and no `*`
      at its end, since that `*` and the first `*` of the closing pair would already have closed
      the group one character earlier. */
  predicate CleanCapture(c: string) {
    NoDelim(c) && NoTerminator(c) && (c == [] || c[|c| - 1] != '*')
  }

  /** Every odd piece is a capture of the group. */
  predicate CapturesClean(parts: seq<string>) {
    forall i :: 0 <= i < |parts| && i % 2 == 1 ==> CleanCapture(parts[i])
  }

  lemma CapturesCleanCons(a: string, b: string, rest: seq<string>)
    requires CleanCapture(b) && CapturesClean(rest)
    ensures CapturesClean([a, b] + rest)
  {
    var parts := [a, b] + rest;
    forall i | 0 <= i < |parts| && i % 2 == 1 ensures CleanCapture(parts[i]) {
      if i > 1 {
        assert parts[i] == rest[i - 2];
      }
    }
  }

  /** No complete pair opens before position `n` of `s`. */
  ghost predicate NoPairBefore(s: string, n: int) {
    forall q, j :: 0 <= q < n ==> !PairAt(s, q, j)
  }

  /** Every match of the split opens at the leftmost place it can: no pair opens inside the
      plain piece in front of it, in the text that remains from that piece on. */
  ghost predicate Leftmost(parts: seq<string>)
    requires |parts| % 2 == 1
    decreases |parts|
  {
    |parts| == 1 || (NoPairBefore(Rejoin(parts), |parts[0]|) && Leftmost(parts[2..]))
  }

  /** The global split of `formatInline`: an odd number of pieces that rejoin to the line; every odd
      piece is a capture of the lazy group, every match opens at the leftmost place it can, and
      the last piece holds no complete pair. Together these leave exactly one split. */
  function SplitBold(s: string): (parts: seq<string>)
    ensures |parts| % 2 == 1
    ensures Rejoin(parts) == s
    ensures CapturesClean(parts)
    ensures Leftmost(parts)
    ensures !HasBoldPair(parts[|parts| - 1])
    decreases |s|
  {
    match FirstMatch(s, 0)
    case None => [s]
    case Some((q, j)) =>
      var rest := SplitBold(s[j + 2..]);
      assert NoPairBefore(s, q);
      SplitStep(s, q, j, rest);
      OddCons(s[..q], s[q + 2..j], rest);
      [s[..q], s[q + 2..j]] + rest
  }

  /** Two more pieces keep the count odd. */
  lemma OddCons(a: string, b: string, rest: seq<string>)
    requires |rest| % 2 == 1
    ensures |[a, b] + rest| % 2 == 1
  {
    assert |[a, b] + rest| == |rest| + 2;
  }

  /** One step of the split: the leftmost match's surroundings put in front of the split of what
      follows it keep every property of the split. */
  lemma SplitStep(s: string, q: nat, j: nat, rest: seq<string>)
    requires PairAt(s, q, j) && forall k :: q + 2 <= k < j ==> !DelimAt(s, k)
    requires NoPairBefore(s, q)
    requires |rest| % 2 == 1 && Rejoin(rest) == s[j + 2..] && CapturesClean(rest) && Leftmost(rest)
    requires !HasBoldPair(rest[|rest| - 1])
    ensures Rejoin([s[..q], s[q + 2..j]] + rest) == s
    ensures CapturesClean([s[..q], s[q + 2..j]] + rest)
    ensures Leftmost([s[..q], s[q + 2..j]] + rest)
    ensures !HasBoldPair(([s[..q], s[q + 2..j]] + rest)[|rest| + 1])
  {
    var parts := [s[..q], s[q + 2..j]] + rest;
    MatchPieces(s, q, j);
    CapturesCleanCons(s[..q], s[q + 2..j], rest);
    RejoinCons(s[..q], s[q + 2..j], rest);
    assert parts[2..] == rest && |parts[0]| == q;
    assert parts[|rest| + 1] == rest[|rest| - 1];
  }

  /** The split is determined by its properties: any pieces that have them are the pieces
      `split` returns for the text they rejoin to. */
  lemma {:induction false} SplitUnique(parts: seq<string>)
    requires |parts| % 2 == 1 && CapturesClean(parts) && Leftmost(parts)
    requires !HasBoldPair(parts[|parts| - 1])
    ensures SplitBold(Rejoin(parts)) == parts
    decreases |parts|
  {
    var s := Rejoin(parts);
    if |parts| == 1 {
      NoPairNoMatch(s);
    } else {
      var rest := parts[2..];
      assert parts == [parts[0], parts[1]] + rest;
      RejoinCons(parts[0], parts[1], rest);
      SplitOfMatch(s, parts[0], parts[1], Rejoin(rest));
      CapturesCleanTail(parts);
      assert rest[|rest| - 1] == parts[|parts| - 1];
      SplitUnique(rest);
    }
  }

  /** A clean capture after a plain piece in which no pair opens is split off first. */
  lemma SplitOfMatch(s: string, a: string, b: string, t: string)
    requires s == a + "**" + b + "**" + t && CleanCapture(b) && NoPairBefore(s, |a|)
    ensures SplitBold(s) == [a, b] + SplitBold(t)
  {
    CaptureIsMatch(s, a, b, t);
    PiecesOf(a, b, t);
  }

  /** Where the pieces sit in `a ** b ** t`. */
  lemma PiecesOf(a: string, b: string, t: string)
    ensures var s, q, j := a + "**" + b + "**" + t, |a|, |a| + 2 + |b|;
      |s| == j + 2 + |t| && s[..q] == a && s[q + 2..j] == b && s[j + 2..] == t
      && s[q] == '*' && s[q + 1] == '*' && s[j] == '*' && s[j + 1] == '*'
  {
  }

  /** A text without a complete pair has no match. */
  lemma NoPairNoMatch(s: string)
    ensures !HasBoldPair(s) ==> FirstMatch(s, 0).None?
  {
    if FirstMatch(s, 0).Some? {
      var m := FirstMatch(s, 0).value;
      assert PairAt(s, m.0, m.1);
    }
  }

  lemma CapturesCleanTail(parts: seq<string>)
    requires |parts| >= 2 && CapturesClean(parts)
    ensures CapturesClean(parts[2..])
  {
    forall i | 0 <= i < |parts| - 2 && i % 2 == 1 ensures CleanCapture(parts[2..][i]) {
      assert parts[2..][i] == parts[i + 2];
    }
  }

  /** A clean capture between two `**`, with no pair opening earlier, is the first match. */
  lemma CaptureIsMatch(s: string, a: string, b: string, t: string)
    requires s == a + "**" + b + "**" + t && CleanCapture(b) && NoPairBefore(s, |a|)
    ensures FirstMatch(s, 0) == Some((|a|, |a| + 2 + |b|))
  {
    var q, j := |a|, |a| + 2 + |b|;
    PiecesOf(a, b, t);
    assert PairAt(s, q, j);
    forall k | q + 2 <= k < j ensures !DelimAt(s, k) {
      if k < j - 1 {
        assert s[k] == b[k - q - 2] && s[k + 1] == b[k - q - 1];
        assert !DelimAt(b, k - q - 2);
      } else {
        assert s[k] == b[|b| - 1];
      }
    }
    var m := FirstMatch(s, 0);
    assert m.Some?;
    assert m.value.0 == q;
    assert m.value.1 == j;
  }

  /** The pieces one match cuts a string into: text before, capture, text after. */
  lemma MatchPieces(s: string, q: int, j: int)
    requires PairAt(s, q, j)
    requires forall k :: q + 2 <= k < j ==> !DelimAt(s, k)
    ensures s == s[..q] + "**" + s[q + 2..j] + "**" + s[j + 2..]
    ensures CleanCapture(s[q + 2..j])
  {
    assert s[q..q + 2] == "**" && s[j..j + 2] == "**";
    assert s == s[..q] + s[q..q + 2] + s[q + 2..j] + s[j..j + 2] + s[j + 2..];
    var c := s[q + 2..j];
    forall k | 0 <= k < |c| ensures !DelimAt(c, k) {
      if DelimAt(c, k) {
        assert DelimAt(s, q + 2 + k);
      }
    }
    if j > q + 2 {
      assert !DelimAt(s, j - 1);
      assert c[|c| - 1] == s[j - 1];
    }
  }

  /** The run a piece becomes: odd pieces are bold, even pieces plain. */
  function Tag(parts: seq<string>): (runs: seq<Run>)
    ensures |runs| == |parts|
    ensures forall i :: 0 <= i < |parts| ==> runs[i].text == parts[i] && (runs[i].Bold? <==> i % 2 == 1)
  {
    seq(|parts|, i requires 0 <= i < |parts| => if i % 2 == 1 then Bold(parts[i]) else Plain(parts[i]))
  }

  /** The text a run came from: bold runs get their `**` back. */
  function RunSource(run: Run): string {
    match run
    case Plain(t) => t
    case Bold(t) => "**" + t + "**"
  }

  function Flatten(runs: seq<Run>): string
    decreases |runs|
  {
    if |runs| == 0 then "" else RunSource(runs[0]) + Flatten(runs[1..])
  }

  lemma {:induction false} FlattenAppend(a: seq<Run>, b: seq<Run>)
    ensures Flatten(a + b) == Flatten(a) + Flatten(b)
    decreases |a|
  {
    if |a| == 0 {
      assert a + b == b;
    } else {
      assert (a + b)[1..] == a[1..] + b;
      FlattenAppend(a[1..], b);
    }
  }

  /** Tagging the pieces and flattening the runs is the same as rejoining the pieces. */
  lemma {:induction false} FlattenTag(parts: seq<string>)
    requires |parts| % 2 == 1
    ensures Flatten(Tag(parts)) == Rejoin(parts)
    decreases |parts|
  {
    if |parts| == 1 {
      assert Tag(parts) == [Plain(parts[0])];
    } else {
      var rest := parts[2..];
      assert parts == [parts[0], parts[1]] + rest;
      TagCons(parts[0], parts[1], rest);
      FlattenAppend([Plain(parts[0]), Bold(parts[1])], Tag(rest));
      assert Flatten([Plain(parts[0]), Bold(parts[1])]) == parts[0] + ("**" + parts[1] + "**");
      FlattenTag(rest);
    }
  }

  lemma TagCons(a: string, b: string, rest: seq<string>)
    ensures Tag([a, b] + rest) == [Plain(a), Bold(b)] + Tag(rest)
  {
    var l, r := Tag([a, b] + rest), [Plain(a), Bold(b)] + Tag(rest);
    forall i | 0 <= i < |l| ensures l[i] == r[i] {
      if i >= 2 {
        assert ([a, b] + rest)[i] == rest[i - 2] && r[i] == Tag(rest)[i - 2];
        assert (i - 2) % 2 == i % 2;
      }
    }
  }

  /** `formatInline`: plain and bold runs alternating, starting and ending with a plain run (so an
      odd number), which flatten back to the line; the runs carry the pieces of the split in
      order, so every bold run is a capture of the lazy group. A line with a single piece is returned as
      its own text by the page; here that is the single run `Plain(line)`. */
  function FormatInline(line: string): (runs: seq<Run>)
    ensures |runs| % 2 == 1
    ensures forall i :: 0 <= i < |runs| ==> (runs[i].Bold? <==> i % 2 == 1)
    ensures Flatten(runs) == line
    ensures |runs| == |SplitBold(line)| && forall i :: 0 <= i < |runs| ==> runs[i].text == SplitBold(line)[i]
    ensures forall i :: 0 <= i < |runs| && runs[i].Bold? ==> CleanCapture(runs[i].text)
  {
    var parts := SplitBold(line);
    FlattenTag(parts);
    Tag(parts)
  }

  /** A line without a complete `**…**` pair comes back as one plain run, and only such a line. */
  lemma FormatInlineWithoutPair(line: string)
    ensures FormatInline(line) == [Plain(line)] <==> !HasBoldPair(line)
  {
    var parts := SplitBold(line);
    var m := FirstMatch(line, 0);
    if m.Some? {
      assert PairAt(line, m.value.0, m.value.1);
      assert |parts| > 1;
    } else {
      assert parts == [line];
    }
  }
}

=== FILE: json.dfy ===
/** The loosely typed values the page receives from the agent service, with the JavaScript
    operations the page applies to them. */
module Json {

  /** A JSON value. JavaScript's `undefined` is not separate from `Null`: every test the page
      applies (`!v`, `typeof v === 'string'`, `v?.key`) treats the two alike. */
  datatype JsonValue =
    | Null
    | Bool(b: bool)
    | Num(n: real)
    | Str(s: string)
    | Arr(items: seq<JsonValue>)
    | Obj(fields: map<string, JsonValue>)

  /** JavaScript's ToBoolean: `null`, `false`, `0` and `""` are falsy; arrays and objects,
      even empty ones, are truthy. */
  predicate Truthy(v: JsonValue) {
    match v
    case Null => false
    case Bool(b) => b
    case Num(n) => n != 0.0
    case Str(s) => s != ""
    case Arr(_) => true
    case Obj(_) => true
  }

  /** `typeof v === 'object'`, which holds of `null` and of arrays as well as of objects. */
  predicate IsObjectType(v: JsonValue) {
    v.Null? || v.Arr? || v.Obj?
  }

  /** The property read `v?.key`: only objects carry named properties; every absent property
      reads as `Null`. */
  function Get(v: JsonValue, key: string): JsonValue {
    if v.Obj? && key in v.fields then v.fields[key] else Null
  }

  /** A value passes `v && typeof v === 'object'` exactly when it is an array or an object. */
  lemma TruthyObjectIsStructured(v: JsonValue)
    ensures Truthy(v) && IsObjectType(v) <==> v.Arr? || v.Obj?
  {
  }
}

=== FILE: markdown.dfy ===
/** The line-by-line markdown renderer, producing blocks as data instead of page elements. */
module Markdown {
  import opened Options
  import opened Strings
  import opened Inline
  import Seqs

  /** One rendered line: a heading (level 1 to 3, raw text), a list item (ordered or not, with
      inline runs), a blank spacer, or a paragraph (with inline runs). */
  datatype Block = H(level: nat, text: string) | Li(ordered: bool, runs: seq<Run>) | Spacer | P(runs: seq<Run>)

  /** The length of the run of ASCII digits at the front of `s`. */
  function DigitRun(s: string): (k: nat)
    ensures k <= |s|
    ensures forall i :: 0 <= i < k ==> IsAsciiDigit(s[i])
    ensures k < |s| ==> !IsAsciiDigit(s[k])
    decreases |s|
  {
    if |s| > 0 && IsAsciiDigit(s[0]) then 1 + DigitRun(s[1..]) else 0
  }

  /** A run of digits followed by a non-digit is the whole leading digit run. */
  lemma {:induction false} DigitRunStopsAt(s: string, k: nat)
    requires k < |s| && !IsAsciiDigit(s[k])
    requires forall i :: 0 <= i < k ==> IsAsciiDigit(s[i])
    ensures DigitRun(s) == k
    decreases k
  {
    if k > 0 {
      assert IsAsciiDigit(s[0]);
      DigitRunStopsAt(s[1..], k - 1);
    }
  }

  /** The pattern `^\d+\.\s` matches `line` with exactly `k` digits. */
  ghost predicate OrderedMarkerAt(line: string, k: int) {
    1 <= k && k + 2 <= |line|
    && (forall i :: 0 <= i < k ==> IsAsciiDigit(line[i]))
    && line[k] == '.' && IsJsWhitespace(line[k + 1])
  }

  /** The length of the ordered-list marker `^\d+\.\s` at the front of `line`, if it has one. The
      greedy digit run cannot give back digits usefully, since `.` is not a digit, so there is
      at most one way for the pattern to match. */
  function OrderedMarker(line: string): (r: Option<nat>)
    ensures forall k {:trigger OrderedMarkerAt(line, k)} :: OrderedMarkerAt(line, k) <==> r == Some(k + 2)
    ensures r.Some? ==> 3 <= r.value <= |line| && IsAsciiDigit(line[0])
  {
    var k := DigitRun(line);
    forall k' | OrderedMarkerAt(line, k') ensures k' == k {
      DigitRunStopsAt(line, k');
    }
    if 1 <= k && k + 2 <= |line| && line[k] == '.' && IsJsWhitespace(line[k + 1]) then
      assert OrderedMarkerAt(line, k);
      Some(k + 2)
    else
      None
  }

  /** The heading marker for each level. */
  function HeadingMarker(level: nat): string {
    if level == 3 then "### " else if level == 2 then "## " else "# "
  }

  /** How one line is rendered; the first rule that applies wins. */
  function Classify(line: string): (block: Block)
    ensures block.H? ==> 1 <= block.level <= 3
    ensures block.Li? && !block.ordered ==> StartsWith(line, "- ") || StartsWith(line, "* ")
    ensures block.Spacer? ==> AllWhitespace(line)
    ensures block.P? ==> !AllWhitespace(line)
  {
    if StartsWith(line, "### ") then H(3, line[4..])
    else if StartsWith(line, "## ") then H(2, line[3..])
    else if StartsWith(line, "# ") then H(1, line[2..])
    else if StartsWith(line, "- ") || StartsWith(line, "* ") then Li(false, FormatInline(line[2..]))
    else if OrderedMarker(line).Some? then Li(true, FormatInline(line[OrderedMarker(line).value..]))
    else if Trim(line) == "" then Spacer
    else P(FormatInline(line))
  }

  /** `renderMarkdown`: nothing for the empty text; otherwise one block per line of
      `text.split('\n')` (one more than there are line breaks), in order. */
  function Render(text: string): (blocks: seq<Block>)
    ensures text == "" ==> blocks == []
    ensures text != "" ==> |blocks| == Count(text, '\n') + 1
    ensures text != "" ==> forall i :: 0 <= i < |blocks| ==> blocks[i] == Classify(Split(text, '\n')[i])
  {
    if text == "" then [] else ClassifyAll(Split(text, '\n'))
  }

  function ClassifyAll(lines: seq<string>): (blocks: seq<Block>)
    ensures |blocks| == |lines|
    ensures forall i :: 0 <= i < |lines| ==> blocks[i] == Classify(lines[i])
  {
    Seqs.Map(Classify, lines)
  }

  /** Headings: a line is a heading exactly when it starts with one of the three markers; the
      marker is stripped and the rest kept raw, without inline formatting. */
  lemma ClassifyHeading(line: string)
    ensures Classify(line).H? <==> StartsWith(line, "### ") || StartsWith(line, "## ") || StartsWith(line, "# ")
    ensures StartsWith(line, "### ") ==> Classify(line) == H(3, line[4..])
    ensures StartsWith(line, "## ") ==> Classify(line) == H(2, line[3..])
    ensures StartsWith(line, "# ") ==> Classify(line) == H(1, line[2..])
    ensures Classify(line).H? ==>
      1 <= Classify(line).level <= 3 && line == HeadingMarker(Classify(line).level) + Classify(line).text
  {
    if StartsWith(line, "### ") {
      assert line[..4][2] == line[2] && line[..4][1] == line[1];
      assert line[..3][2] == line[2] && line[..2][1] == line[1];
      assert line == line[..4] + line[4..];
    } else if StartsWith(line, "## ") {
      assert line[..3][1] == line[1] && line[..2][1] == line[1];
      assert line == line[..3] + line[3..];
    } else if StartsWith(line, "# ") {
      assert line == line[..2] + line[2..];
    }
  }

  /** Unordered items: exactly the lines starting with `- ` or `* `, with those two characters
      removed before inline formatting. */
  lemma ClassifyUnordered(line: string)
    ensures (Classify(line).Li? && !Classify(line).ordered) <==> StartsWith(line, "- ") || StartsWith(line, "* ")
    ensures StartsWith(line, "- ") || StartsWith(line, "* ") ==> Classify(line) == Li(false, FormatInline(line[2..]))
  {
    if StartsWith(line, "- ") || StartsWith(line, "* ") {
      assert line[..2][0] == line[0];
      assert !StartsWith(line, "### ") by { assert |line| >= 4 ==> line[..4][0] == line[0]; }
      assert !StartsWith(line, "## ") by { assert |line| >= 3 ==> line[..3][0] == line[0]; }
    }
  }

  /** Ordered items: exactly the lines the pattern `^\d+\.\s` matches, with exactly the matched
      prefix removed before inline formatting. */
  lemma ClassifyOrdered(line: string)
    ensures (Classify(line).Li? && Classify(line).ordered) <==> OrderedMarker(line).Some?
    ensures forall k {:trigger OrderedMarkerAt(line, k)} :: OrderedMarkerAt(line, k) ==> Classify(line) == Li(true, FormatInline(line[k + 2..]))
  {
    if OrderedMarker(line).Some? {
      assert IsAsciiDigit(line[0]);
      NoEarlierMarker(line);
      forall k | OrderedMarkerAt(line, k) ensures Classify(line) == Li(true, FormatInline(line[k + 2..])) {
        assert OrderedMarker(line) == Some(k + 2);
      }
    }
  }

  /** A line whose first character is none of `#`, `-`, `*` opens no heading and no unordered item. */
  lemma NoEarlierMarker(line: string)
    requires |line| > 0 && line[0] != '#' && line[0] != '-' && line[0] != '*'
    ensures !StartsWith(line, "### ") && !StartsWith(line, "## ") && !StartsWith(line, "# ")
    ensures !StartsWith(line, "- ") && !StartsWith(line, "* ")
  {
    assert |line| >= 4 ==> line[..4][0] == line[0];
    assert |line| >= 3 ==> line[..3][0] == line[0];
    assert |line| >= 2 ==> line[..2][0] == line[0];
  }

  /** Spacers: exactly the lines made of whitespace only, the empty line included. */
  lemma ClassifySpacer(line: string)
    ensures Classify(line) == Spacer <==> AllWhitespace(line)
  {
    if AllWhitespace(line) && |line| > 0 {
      assert IsJsWhitespace(line[0]);
      assert !IsAsciiDigit(line[0]);
      NoEarlierMarker(line);
      assert OrderedMarker(line).None?;
      assert Trim(line) == "";
    }
  }

  /** Paragraphs: every other line, inline formatted whole. */
  lemma ClassifyParagraph(line: string)
    ensures Classify(line).P? <==>
      && !StartsWith(line, "### ") && !StartsWith(line, "## ") && !StartsWith(line, "# ")
      && !StartsWith(line, "- ") && !StartsWith(line, "* ")
      && OrderedMarker(line).None? && !AllWhitespace(line)
    ensures Classify(line).P? ==> Classify(line) == P(FormatInline(line))
  {
  }

  /** Lines are rendered independently: the blocks of two texts joined by a line break are the
      blocks of the first followed by the blocks of the second (no block spans lines). */
  lemma RenderConcat(a: string, b: string)
    requires a != "" && b != ""
    ensures Render(a + "\n" + b) == Render(a) + Render(b)
  {
    SplitConcat(a, b, '\n');
    ClassifyAllAppend(Split(a, '\n'), Split(b, '\n'));
  }

  lemma ClassifyAllAppend(la: seq<string>, lb: seq<string>)
    ensures ClassifyAll(la + lb) == ClassifyAll(la) + ClassifyAll(lb)
  {
    Seqs.MapAppend(Classify, la, lb);
  }

  /** A worked example, line by line: headings keep their text, each list line is its own item,
      the empty line is a spacer, and the paragraph's inline split ends with an empty plain run
      after the bold one (the split yields a last, empty piece after a closing `**` at the end of
      the line). The lines arrive as a parameter fixed by the precondition rather than as a
      literal in the contract, which keeps the solver from unfolding the literal strings. */
  lemma ClassifyExample(lines: seq<string>)
    requires lines == ["### Hi", "- a", "- b", "", "Hello **world**"]
    ensures Classify(lines[0]) == H(3, "Hi")
    ensures Classify(lines[1]) == Li(false, [Plain("a")]) && Classify(lines[2]) == Li(false, [Plain("b")])
    ensures Classify(lines[3]) == Spacer
    ensures Classify(lines[4]) == P([Plain("Hello "), Bold("world"), Plain("")])
  {
    ClassifyHeadingExample();
    ClassifyItemExample(lines[1], "a");
    ClassifyItemExample(lines[2], "b");
    ClassifySpacer(lines[3]);
    ClassifyParagraphExample();
  }

  /** The whole text of the example goes through `Render`: the five lines put together with line
      breaks are split apart again and each classified as above. As in `ClassifyExample`, the
      text and lines are parameters fixed by the precondition, which keeps the solver from
      unfolding the literal strings. */
  lemma RenderExample(text: string, lines: seq<string>)
    requires lines == ["### Hi", "- a", "- b", "", "Hello **world**"]
    requires text == lines[0] + "\n" + lines[1] + "\n" + lines[2] + "\n" + lines[3] + "\n" + lines[4]
    ensures |Render(text)| == 5
    ensures Render(text)[0] == H(3, "Hi")
    ensures Render(text)[1] == Li(false, [Plain("a")]) && Render(text)[2] == Li(false, [Plain("b")])
    ensures Render(text)[3] == Spacer
    ensures Render(text)[4] == P([Plain("Hello "), Bold("world"), Plain("")])
  {
    JoinFive(lines[0], lines[1], lines[2], lines[3], lines[4], "\n");
    assert lines == [lines[0], lines[1], lines[2], lines[3], lines[4]];
    ExampleLinesUnbroken(lines);
    SplitJoin(lines, '\n');
    ClassifyExample(lines);
  }

  /** Five pieces joined are the pieces with the separator between each two. */
  lemma JoinFive(a: string, b: string, c: string, d: string, e: string, sep: string)
    ensures Join([a, b, c, d, e], sep) == a + sep + b + sep + c + sep + d + sep + e
  {
    var parts := [a, b, c, d, e];
    JoinStep(parts, sep);
    JoinStep(parts[1..], sep);
    JoinStep(parts[2..], sep);
    JoinStep(parts[3..], sep);
    assert parts[1..][1..] == parts[2..] && parts[2..][1..] == parts[3..] && parts[3..][1..] == [e];
  }

  lemma ExampleLinesUnbroken(lines: seq<string>)
    requires lines == ["### Hi", "- a", "- b", "", "Hello **world**"]
    ensures forall i :: 0 <= i < |lines| ==> '\n' !in lines[i]
  {
  }

  lemma ClassifyHeadingExample()
    ensures Classify("### Hi") == H(3, "Hi")
  {
    assert "### Hi"[4..] == "Hi";
    ClassifyHeading("### Hi");
  }

  lemma ClassifyItemExample(line: string, item: string)
    requires |item| < 4 && line == "- " + item
    ensures Classify(line) == Li(false, [Plain(item)])
  {
    assert line[2..] == item;
    ClassifyUnordered(line);
    FormatInlineWithoutPair(item);
  }

  lemma ClassifyParagraphExample()
    ensures Classify("Hello **world**") == P([Plain("Hello "), Bold("world"), Plain("")])
  {
    var s := "Hello **world**";
    assert s[0] == 'H';
    assert s[..2][0] == 'H' && s[..3][0] == 'H' && s[..4][0] == 'H';
    assert !StartsWith(s, "### ") && !StartsWith(s, "## ") && !StartsWith(s, "# ");
    assert !StartsWith(s, "- ") && !StartsWith(s, "* ");
    assert DigitRun(s) == 0;
    assert OrderedMarker(s) == None;
    assert !IsJsWhitespace(s[0]);
    FormatInlineExample();
  }

  lemma FormatInlineExample()
    ensures FormatInline("Hello **world**") == [Plain("Hello "), Bold("world"), Plain("")]
  {
    ExampleSplit();
    var runs := FormatInline("Hello **world**");
    assert |runs| == 3;
    assert runs[0] == Plain("Hello ") && runs[1] == Bold("world") && runs[2] == Plain("");
  }

  /** The example cut at its one pair: text before, the capture, and the empty rest. */
  lemma ExampleSplit()
    ensures SplitBold("Hello **world**") == ["Hello ", "world", ""]
  {
    var s := "Hello **world**";
    ExampleMatch();
    assert SplitBold(s[15..]) == [""];
    assert s[..6] == "Hello " && s[8..13] == "world";
  }

  /** The example's only match: the opening pair at 6 and the closing pair at 13. */
  lemma ExampleMatch()
    ensures FirstMatch("Hello **world**", 0) == Some((6, 13))
  {
    var s := "Hello **world**";
    assert CloseFrom(s, 8) == Some(13);
    assert FirstMatch(s, 6) == Some((6, 13));
    assert FirstMatch(s, 3) == Some((6, 13));
  }
}

=== FILE: options.dfy ===
/** An optional value. `None` stands for a JavaScript slot that holds `undefined` or `null`. */
module Options {

  datatype Option<+T> = None | Some(value: T) {

    /** The `??` operator: the value when present, `default` otherwise. */
    function GetOr(default: T): T {
      match this
      case Some(v) => v
      case None => default
    }
  }
}

=== FILE: reply.dfy ===
/** The email reply record and the texts the page assembles from it. */
module Reply {
  import opened Options
  import opened Strings
  import opened Json

  /** The reply the agent produces; every field may be absent, and absence is kept apart from the
      empty string. */
  datatype EmailReply = EmailReply(
    detectedIntent: Option<string>,
    isSensitive: Option<bool>,
    sensitivityReason: Option<string>,
    subjectLine: Option<string>,
    greeting: Option<string>,
    body: Option<string>,
    closing: Option<string>,
    signaturePlaceholder: Option<string>,
    confidenceScore: Option<real>)

  function StringField(v: JsonValue, key: string): Option<string> {
    match Get(v, key)
    case Str(s) => Some(s)
    case _ => None
  }

  /** Whether a JSON value has the type the reply field `name` declares: a boolean for
      `is_sensitive`, a number for `confidence_score`, a string otherwise. */
  predicate HasFieldType(name: string, j: JsonValue) {
    if name == "is_sensitive" then j.Bool? else if name == "confidence_score" then j.Num? else j.Str?
  }

  /** Reading the reply record out of an extracted value, field by field under its JSON name: a
      field is present exactly when the value holds one of its declared type under that name,
      and then it is that value. */
  function FromJson(v: JsonValue): (r: EmailReply)
    ensures forall name :: name in FieldNames ==>
      FieldJson(r, name) == (if HasFieldType(name, Get(v, name)) then Some(Get(v, name)) else None)
  {
    EmailReply(
      StringField(v, "detected_intent"),
      match Get(v, "is_sensitive") case Bool(b) => Some(b) case _ => None,
      StringField(v, "sensitivity_reason"),
      StringField(v, "subject_line"),
      StringField(v, "greeting"),
      StringField(v, "body"),
      StringField(v, "closing"),
      StringField(v, "signature_placeholder"),
      match Get(v, "confidence_score") case Num(n) => Some(n) case _ => None)
  }

  /** The JSON names of the reply's fields. */
  const FieldNames: set<string> := {"detected_intent", "is_sensitive", "sensitivity_reason", "subject_line",
    "greeting", "body", "closing", "signature_placeholder", "confidence_score"}

  function StrOpt(s: Option<string>): Option<JsonValue> {
    match s
    case Some(x) => Some(Str(x))
    case None => None
  }

  /** The JSON value stored under `name`, when the field is present. */
  function FieldJson(r: EmailReply, name: string): Option<JsonValue> {
    if name == "detected_intent" then StrOpt(r.detectedIntent)
    else if name == "is_sensitive" then (match r.isSensitive case Some(b) => Some(Bool(b)) case None => None)
    else if name == "sensitivity_reason" then StrOpt(r.sensitivityReason)
    else if name == "subject_line" then StrOpt(r.subjectLine)
    else if name == "greeting" then StrOpt(r.greeting)
    else if name == "body" then StrOpt(r.body)
    else if name == "closing" then StrOpt(r.closing)
    else if name == "signature_placeholder" then StrOpt(r.signaturePlaceholder)
    else if name == "confidence_score" then (match r.confidenceScore case Some(n) => Some(Num(n)) case None => None)
    else None
  }

  /** The reply record as a JSON object: present fields under their JSON names, absent ones left
      out. */
  function ToJson(r: EmailReply): JsonValue {
    Obj(map name | name in FieldNames && FieldJson(r, name).Some? :: FieldJson(r, name).value)
  }

  /** Writing a reply out as JSON and reading it back loses nothing: in particular an absent field
      stays absent and an empty one stays empty. */
  lemma JsonRoundTrip(r: EmailReply)
    ensures FromJson(ToJson(r)) == r
  {
    ToJsonStringField(r, "detected_intent", r.detectedIntent);
    ToJsonStringField(r, "sensitivity_reason", r.sensitivityReason);
    ToJsonStringField(r, "subject_line", r.subjectLine);
    ToJsonStringField(r, "greeting", r.greeting);
    ToJsonStringField(r, "body", r.body);
    ToJsonStringField(r, "closing", r.closing);
    ToJsonStringField(r, "signature_placeholder", r.signaturePlaceholder);
    ToJsonField(r, "is_sensitive");
    ToJsonField(r, "confidence_score");
  }

  /** A field of the JSON form holds what `FieldJson` says, or is absent. */
  lemma ToJsonField(r: EmailReply, name: string)
    requires name in FieldNames
    ensures Get(ToJson(r), name) == FieldJson(r, name).GetOr(Null)
  {
  }

  lemma ToJsonStringField(r: EmailReply, name: string, value: Option<string>)
    requires name in FieldNames && FieldJson(r, name) == StrOpt(value)
    ensures StringField(ToJson(r), name) == value
  {
    ToJsonField(r, name);
  }

  /** The `ConfidenceBar` clamp of `confidence_score ?? 0`: a missing score shows as 0, and any
      score is clamped into [0, 100]; a score already in range is shown as it is. */
  function SafeScore(score: Option<real>): (r: real)
    ensures 0.0 <= r <= 100.0
    ensures score.None? ==> r == 0.0
    ensures score.Some? && 0.0 <= score.value <= 100.0 ==> r == score.value
    ensures score.Some? && score.value < 0.0 ==> r == 0.0
    ensures score.Some? && score.value > 100.0 ==> r == 100.0
  {
    match score
    case None => 0.0
    case Some(s) =>
      var atLeastZero := if s < 0.0 then 0.0 else s;
      if atLeastZero > 100.0 then 100.0 else atLeastZero
  }

  /** Clamping never reorders two scores. */
  lemma SafeScoreMonotone(a: real, b: real)
    requires a <= b
    ensures SafeScore(Some(a)) <= SafeScore(Some(b))
  {
  }

  /** Clamping an already clamped score changes nothing. */
  lemma SafeScoreIdempotent(score: Option<real>)
    ensures SafeScore(Some(SafeScore(score))) == SafeScore(score)
  {
  }

  datatype Band = Red | Yellow | Green

  function BandRank(b: Band): nat {
    match b
    case Red => 0
    case Yellow => 1
    case Green => 2
  }

  /** The colour of the confidence bar: green from 80, yellow from 60, red below. */
  function ScoreBand(safe: real): (b: Band)
    ensures b == Green <==> safe >= 80.0
    ensures b == Yellow <==> 60.0 <= safe < 80.0
    ensures b == Red <==> safe < 60.0
  {
    if safe >= 80.0 then Green else if safe >= 60.0 then Yellow else Red
  }

  /** A higher score never gets a worse colour. */
  lemma ScoreBandMonotone(a: real, b: real)
    requires a <= b
    ensures BandRank(ScoreBand(a)) <= BandRank(ScoreBand(b))
  {
  }

  /** The body the page shows and copies: the edited text while editing, the reply's own body
      otherwise. */
  function ShownBody(resp: EmailReply, isEditing: bool, editableBody: string): string {
    if isEditing then editableBody else resp.body.GetOr("")
  }

  /** Joining the seven display slots with line breaks separates the four parts by blank lines. */
  lemma JoinDisplaySlots(g: string, b: string, c: string, sig: string)
    ensures Join([g, "", b, "", c, "", sig], "\n") == g + "\n\n" + b + "\n\n" + c + "\n\n" + sig
  {
    JoinBlankSlot(c, [sig]);
    JoinBlankSlot(b, [c, "", sig]);
    JoinBlankSlot(g, [b, "", c, "", sig]);
    assert [g, "", b, "", c, "", sig] == [g, ""] + [b, "", c, "", sig];
    assert [b, "", c, "", sig] == [b, ""] + [c, "", sig];
    assert [c, "", sig] == [c, ""] + [sig];
  }

  /** A part followed by an empty slot is followed by a blank line. */
  lemma JoinBlankSlot(x: string, rest: seq<string>)
    requires |rest| >= 1
    ensures Join([x, ""] + rest, "\n") == x + "\n\n" + Join(rest, "\n")
  {
    var tail := Join(rest, "\n");
    JoinCons("", rest, "\n");
    assert [x, ""] + rest == [x] + ([""] + rest);
    JoinCons(x, [""] + rest, "\n");
    DoubleBreak(x, tail);
  }

  /** Two single line breaks in a row are one blank line. */
  lemma DoubleBreak(x: string, tail: string)
    ensures x + "\n" + ("" + "\n" + tail) == x + "\n\n" + tail
  {
    var l, r := x + "\n" + ("" + "\n" + tail), x + "\n\n" + tail;
    assert |l| == |r|;
    forall i | 0 <= i < |l| ensures l[i] == r[i] {
      if i < |x| {
      } else if i < |x| + 2 {
      } else {
        assert l[i] == tail[i - |x| - 2];
      }
    }
  }

  /** `fullReplyText`: greeting, body, closing and signature separated by blank lines, absent
      fields shown as empty; nothing at all without a reply. */
  function FullReplyText(resp: Option<EmailReply>, isEditing: bool, editableBody: string): (t: string)
    ensures resp.None? ==> t == ""
    ensures resp.Some? ==>
      t == resp.value.greeting.GetOr("") + "\n\n" + ShownBody(resp.value, isEditing, editableBody)
        + "\n\n" + resp.value.closing.GetOr("") + "\n\n" + resp.value.signaturePlaceholder.GetOr("")
  {
    match resp
    case None => ""
    case Some(r) =>
      JoinDisplaySlots(r.greeting.GetOr(""), ShownBody(r, isEditing, editableBody), r.closing.GetOr(""),
        r.signaturePlaceholder.GetOr(""));
      Join([r.greeting.GetOr(""), "", ShownBody(r, isEditing, editableBody), "", r.closing.GetOr(""), "",
        r.signaturePlaceholder.GetOr("")], "\n")
  }

  /** The nine slots `handleCopyReply` joins, after dropping the subject slot when it is empty. */
  function CopySlots(resp: EmailReply, isEditing: bool, editableBody: string): seq<string> {
    var subject := if resp.subjectLine.Some? && resp.subjectLine.value != "" then "Subject: " + resp.subjectLine.value else "";
    var slots := [subject, "", resp.greeting.GetOr(""), "", ShownBody(resp, isEditing, editableBody), "",
      resp.closing.GetOr(""), "", resp.signaturePlaceholder.GetOr("")];
    if slots[0] != "" then slots else slots[1..]
  }

  /** `handleCopyReply`: nothing without a reply; otherwise a `Subject:` line and a blank line
      when the subject is non-empty, then the displayed reply text, the whole trimmed. */
  function CopyReplyText(resp: Option<EmailReply>, isEditing: bool, editableBody: string): (t: Option<string>)
    ensures resp.None? <==> t.None?
    ensures resp.Some? && resp.value.subjectLine.Some? && resp.value.subjectLine.value != "" ==>
      t == Some(Trim("Subject: " + resp.value.subjectLine.value + "\n\n" + FullReplyText(resp, isEditing, editableBody)))
    ensures resp.Some? && (resp.value.subjectLine.None? || resp.value.subjectLine.value == "") ==>
      t == Some(Trim(FullReplyText(resp, isEditing, editableBody)))
  {
    match resp
    case None => None
    case Some(r) =>
      CopySlotsJoined(r, isEditing, editableBody);
      TrimLeadingWhitespace("\n", FullReplyText(resp, isEditing, editableBody));
      Some(Trim(Join(CopySlots(r, isEditing, editableBody), "\n")))
  }

  /** The copy slots joined: the subject line and a blank line when there is a subject, a lone
      line break otherwise, then the display text. */
  lemma CopySlotsJoined(r: EmailReply, isEditing: bool, editableBody: string)
    ensures r.subjectLine.Some? && r.subjectLine.value != "" ==>
      Join(CopySlots(r, isEditing, editableBody), "\n")
        == "Subject: " + r.subjectLine.value + "\n\n" + FullReplyText(Some(r), isEditing, editableBody)
    ensures r.subjectLine.None? || r.subjectLine.value == "" ==>
      Join(CopySlots(r, isEditing, editableBody), "\n") == "\n" + FullReplyText(Some(r), isEditing, editableBody)
  {
    var slots := CopySlots(r, isEditing, editableBody);
    var full := FullReplyText(Some(r), isEditing, editableBody);
    var display := [r.greeting.GetOr(""), "", ShownBody(r, isEditing, editableBody), "", r.closing.GetOr(""), "",
      r.signaturePlaceholder.GetOr("")];
    JoinDisplaySlots(r.greeting.GetOr(""), ShownBody(r, isEditing, editableBody), r.closing.GetOr(""),
      r.signaturePlaceholder.GetOr(""));
    assert Join(display, "\n") == full;
    if r.subjectLine.None? || r.subjectLine.value == "" {
      assert slots == [""] + display;
      JoinStep(slots, "\n");
      assert slots[1..] == display;
    } else {
      JoinBlankSlot("Subject: " + r.subjectLine.value, display);
      assert slots == ["Subject: " + r.subjectLine.value, ""] + display;
    }
  }

  /** `HistoryCard.handleCopy`: the displayed reply text of a stored reply, never edited and not
      trimmed. */
  function HistoryCopyText(resp: EmailReply): (t: string)
    ensures t == FullReplyText(Some(resp), false, "")
  {
    JoinDisplaySlots(resp.greeting.GetOr(""), resp.body.GetOr(""), resp.closing.GetOr(""),
      resp.signaturePlaceholder.GetOr(""));
    Join([resp.greeting.GetOr(""), "", resp.body.GetOr(""), "", resp.closing.GetOr(""), "",
      resp.signaturePlaceholder.GetOr("")], "\n")
  }
}

=== FILE: seqs.dfy ===
/** Order-preserving selection over sequences: `Array.prototype.filter`. */
module Seqs {

  /** `a` can be obtained from `b` by deleting elements, keeping the order of the rest. */
  ghost predicate IsSubsequence<T>(a: seq<T>, b: seq<T>)
    decreases |b|
  {
    if |a| == 0 then true
    else if |b| == 0 then false
    else (a[0] == b[0] && IsSubsequence(a[1..], b[1..])) || IsSubsequence(a, b[1..])
  }

  /** `Array.prototype.filter(keep)`: the elements `keep` accepts, in their original order, each
      with its original multiplicity; the rejected ones are gone. */
  function Filter<T(==,!new)>(s: seq<T>, keep: T -> bool): (r: seq<T>)
    ensures |r| <= |s|
    ensures IsSubsequence(r, s)
    ensures forall i :: 0 <= i < |r| ==> keep(r[i])
    ensures forall x :: multiset(r)[x] == if keep(x) then multiset(s)[x] else 0
    decreases |s|
  {
    if |s| == 0 then []
    else
      var rest := Filter(s[1..], keep);
      assert s == [s[0]] + s[1..];
      if keep(s[0]) then
        assert ([s[0]] + rest)[1..] == rest;
        [s[0]] + rest
      else rest
  }

  /** A filter that accepts every element keeps the whole sequence. */
  lemma {:induction false} FilterAll<T(!new)>(s: seq<T>, keep: T -> bool)
    requires forall i :: 0 <= i < |s| ==> keep(s[i])
    ensures Filter(s, keep) == s
    decreases |s|
  {
    if |s| > 0 {
      FilterAll(s[1..], keep);
    }
  }

  /** A filter that accepts no element yields nothing. */
  lemma {:induction false} FilterNone<T(!new)>(s: seq<T>, keep: T -> bool)
    requires forall i :: 0 <= i < |s| ==> !keep(s[i])
    ensures Filter(s, keep) == []
    decreases |s|
  {
    if |s| > 0 {
      FilterNone(s[1..], keep);
    }
  }

  /** `Array.prototype.map`. */
  function Map<A, B>(f: A -> B, s: seq<A>): (r: seq<B>)
    ensures |r| == |s|
    ensures forall i :: 0 <= i < |s| ==> r[i] == f(s[i])
  {
    seq(|s|, i requires 0 <= i < |s| => f(s[i]))
  }

  lemma MapAppend<A, B>(f: A -> B, a: seq<A>, b: seq<A>)
    ensures Map(f, a + b) == Map(f, a) + Map(f, b)
  {
    var r, s := Map(f, a + b), Map(f, a) + Map(f, b);
    forall i | 0 <= i < |r| ensures r[i] == s[i] {
      if i < |a| {
        assert (a + b)[i] == a[i];
      } else {
        assert (a + b)[i] == b[i - |a|];
      }
    }
  }
}

=== FILE: strings.dfy ===
/** String helpers with the semantics of the ECMAScript built-ins the page relies on. */
module Strings {

  /** The characters `String.prototype.trim` strips and the regular expression class `\s` matches:
      ECMAScript's WhiteSpace (tab, vertical tab, form feed, space, no-break space, byte order
      mark and the Zs category) together with its LineTerminator characters. */
  predicate IsJsWhitespace(c: char) {
    var n := c as int;
    n == 0x09 || n == 0x0A || n == 0x0B || n == 0x0C || n == 0x0D || n == 0x20
    || n == 0xA0 || n == 0x1680 || (0x2000 <= n <= 0x200A) || n == 0x2028 || n == 0x2029
    || n == 0x202F || n == 0x205F || n == 0x3000 || n == 0xFEFF
  }

  predicate AllWhitespace(s: string) {
    forall i :: 0 <= i < |s| ==> IsJsWhitespace(s[i])
  }

  /** The regular expression class `\d`: ASCII digits only. */
  predicate IsAsciiDigit(c: char) {
    '0' <= c <= '9'
  }

  predicate StartsWith(s: string, prefix: string) {
    |prefix| <= |s| && s[..|prefix|] == prefix
  }

  predicate EndsWith(s: string, suffix: string) {
    |suffix| <= |s| && s[|s| - |suffix|..] == suffix
  }

  lemma StartsWithConcat(a: string, b: string)
    ensures StartsWith(a + b, a)
  {
    assert (a + b)[..|a|] == a;
  }

  lemma EndsWithConcat(a: string, b: string)
    ensures EndsWith(a + b, b)
  {
    assert (a + b)[|a|..] == b;
  }

  /** `String.prototype.includes`: `q` occurs somewhere in `s` (the empty string occurs everywhere). */
  predicate Contains(s: string, q: string)
    decreases |s|
  {
    StartsWith(s, q) || (|s| > 0 && Contains(s[1..], q))
  }

  /** Leading whitespace removed: what is left is a suffix of `s` that starts with a non-space,
      and what was cut off is whitespace. */
  function TrimStart(s: string): (r: string)
    ensures |r| <= |s| && r == s[|s| - |r|..]
    ensures AllWhitespace(s[..|s| - |r|])
    ensures r == [] || !IsJsWhitespace(r[0])
    ensures r == [] <==> AllWhitespace(s)
    decreases |s|
  {
    if |s| > 0 && IsJsWhitespace(s[0]) then
      var r := TrimStart(s[1..]);
      WhitespaceBefore(s, |s| - |r|);
      r
    else s
  }

  /** Trailing whitespace removed: what is left is a prefix of `s` that ends with a non-space,
      and what was cut off is whitespace. */
  function TrimEnd(s: string): (r: string)
    ensures |r| <= |s| && r == s[..|r|]
    ensures AllWhitespace(s[|r|..])
    ensures r == [] || !IsJsWhitespace(r[|r| - 1])
    ensures r == [] <==> AllWhitespace(s)
    decreases |s|
  {
    if |s| > 0 && IsJsWhitespace(s[|s| - 1]) then
      var r := TrimEnd(s[..|s| - 1]);
      WhitespaceAfter(s, |r|);
      r
    else s
  }

  lemma WhitespaceBefore(s: string, n: int)
    requires 1 <= n <= |s| && IsJsWhitespace(s[0]) && AllWhitespace(s[1..][..n - 1])
    ensures AllWhitespace(s[..n])
  {
    forall i | 0 <= i < n ensures IsJsWhitespace(s[..n][i]) {
      if i > 0 {
        assert s[..n][i] == s[1..][..n - 1][i - 1];
      }
    }
  }

  lemma WhitespaceAfter(s: string, n: int)
    requires 0 <= n < |s| && IsJsWhitespace(s[|s| - 1]) && AllWhitespace(s[..|s| - 1][n..])
    ensures AllWhitespace(s[n..])
  {
    forall i | 0 <= i < |s| - n ensures IsJsWhitespace(s[n..][i]) {
      if i < |s| - 1 - n {
        assert s[n..][i] == s[..|s| - 1][n..][i];
      }
    }
  }

  /** `String.prototype.trim`: the middle of `s`, with only whitespace cut off on either side,
      starting and ending with a non-space. */
  function Trim(s: string): (r: string)
    ensures |r| <= |s|
    ensures exists i, j :: 0 <= i <= j <= |s| && r == s[i..j] && AllWhitespace(s[..i]) && AllWhitespace(s[j..])
    ensures r == [] || (!IsJsWhitespace(r[0]) && !IsJsWhitespace(r[|r| - 1]))
    ensures r == [] <==> AllWhitespace(s)
  {
    var t := TrimStart(s);
    var r := TrimEnd(t);
    TrimSlices(s, t, r, |s| - |t|);
    TrimEnds(s, t, r);
    TrimEmpty(s, t, r);
    r
  }

  /** Trimming the end after the start leaves non-spaces at both ends. */
  lemma TrimEnds(s: string, t: string, r: string)
    requires t == TrimStart(s) && r == TrimEnd(t)
    ensures r == [] || (!IsJsWhitespace(r[0]) && !IsJsWhitespace(r[|r| - 1]))
  {
    if r != [] {
      assert r[0] == t[0];
    }
  }

  /** Trimming the end after the start leaves nothing exactly for whitespace-only input. */
  lemma TrimEmpty(s: string, t: string, r: string)
    requires t == TrimStart(s) && r == TrimEnd(t)
    ensures r == [] <==> AllWhitespace(s)
  {
    LeadingNonSpace(t);
  }

  /** A string that is empty or starts with a non-space is whitespace only exactly when empty. */
  lemma LeadingNonSpace(t: string)
    requires t == [] || !IsJsWhitespace(t[0])
    ensures AllWhitespace(t) <==> t == []
  {
  }

  /** The two cuts of `Trim` as one slice of the input. */
  lemma TrimSlices(s: string, t: string, r: string, i: int)
    requires 0 <= i <= |s| && t == s[i..] && AllWhitespace(s[..i])
    requires |r| <= |t| && r == t[..|r|] && AllWhitespace(t[|r|..])
    ensures exists i, j :: 0 <= i <= j <= |s| && r == s[i..j] && AllWhitespace(s[..i]) && AllWhitespace(s[j..])
  {
    assert s[i + |r|..] == t[|r|..];
    assert r == s[i..i + |r|];
  }

  /** Whitespace in front of a string is invisible to `trim`. */
  lemma {:induction false} TrimStartSkipsWhitespace(w: string, s: string)
    requires AllWhitespace(w)
    ensures TrimStart(w + s) == TrimStart(s)
    decreases |w|
  {
    if w != [] {
      assert (w + s)[0] == w[0];
      assert (w + s)[1..] == w[1..] + s;
      TrimStartSkipsWhitespace(w[1..], s);
    } else {
      assert w + s == s;
    }
  }

  lemma TrimLeadingWhitespace(w: string, s: string)
    requires AllWhitespace(w)
    ensures Trim(w + s) == Trim(s)
  {
    TrimStartSkipsWhitespace(w, s);
  }

  /** ASCII upper-case letters map to lower case; every other character is kept. */
  function LowerChar(c: char): char {
    if 'A' <= c <= 'Z' then (c as int + 32) as char else c
  }

  /** `String.prototype.toLowerCase`, restricted to the ASCII letters. */
  function ToLower(s: string): (r: string)
    ensures |r| == |s|
    ensures forall i :: 0 <= i < |s| ==> r[i] == LowerChar(s[i])
  {
    seq(|s|, i requires 0 <= i < |s| => LowerChar(s[i]))
  }

  /** `Array.prototype.join(sep)` on an array of strings. */
  function Join(parts: seq<string>, sep: string): string
    decreases |parts|
  {
    if |parts| == 0 then ""
    else if |parts| == 1 then parts[0]
    else parts[0] + sep + Join(parts[1..], sep)
  }

  lemma JoinStep(parts: seq<string>, sep: string)
    requires |parts| >= 2
    ensures Join(parts, sep) == parts[0] + sep + Join(parts[1..], sep)
  {
  }

  lemma JoinCons(x: string, rest: seq<string>, sep: string)
    requires |rest| >= 1
    ensures Join([x] + rest, sep) == x + sep + Join(rest, sep)
  {
    assert ([x] + rest)[1..] == rest;
  }

  /** The number of occurrences of `c` in `s`. */
  function Count(s: string, c: char): nat
    decreases |s|
  {
    if |s| == 0 then 0 else (if s[0] == c then 1 else 0) + Count(s[1..], c)
  }

  /** `String.prototype.split(sep)` with a one-character separator: one piece per separator plus one,
      none of them holding the separator, and joining them back gives the input. */
  function Split(s: string, sep: char): (parts: seq<string>)
    ensures |parts| == Count(s, sep) + 1
    ensures forall i :: 0 <= i < |parts| ==> sep !in parts[i]
    ensures Join(parts, [sep]) == s
    decreases |s|
  {
    if |s| == 0 then [""]
    else
      var rest := Split(s[1..], sep);
      assert s == [s[0]] + s[1..];
      if s[0] == sep then
        JoinCons("", rest, [sep]);
        [""] + rest
      else
        JoinPrependChar(s[0], rest, [sep]);
        [[s[0]] + rest[0]] + rest[1..]
  }

  /** A character put in front of the first piece comes out in front of the joined text. */
  lemma JoinPrependChar(c: char, parts: seq<string>, sep: string)
    requires |parts| >= 1
    ensures Join([[c] + parts[0]] + parts[1..], sep) == [c] + Join(parts, sep)
  {
    var p := [[c] + parts[0]] + parts[1..];
    if |parts| >= 2 {
      assert p[1..] == parts[1..];
      JoinStep(p, sep);
      JoinStep(parts, sep);
    }
  }

  /** Splitting is a homomorphism over the separator: the pieces of `a + sep + b` are the pieces of
      `a` followed by the pieces of `b`. */
  lemma {:induction false} SplitConcat(a: string, b: string, sep: char)
    ensures Split(a + [sep] + b, sep) == Split(a, sep) + Split(b, sep)
    decreases |a|
  {
    var s := a + [sep] + b;
    if |a| == 0 {
      assert s[1..] == b;
    } else {
      assert s[1..] == a[1..] + [sep] + b;
      SplitConcat(a[1..], b, sep);
    }
  }

  /** A string without the separator splits into itself alone. */
  lemma {:induction false} SplitWithoutSeparator(s: string, sep: char)
    requires sep !in s
    ensures Split(s, sep) == [s]
    decreases |s|
  {
    if |s| > 0 {
      assert sep !in s[1..] by {
        forall k | 0 <= k < |s[1..]| ensures s[1..][k] != sep {
          assert s[1..][k] == s[k + 1];
        }
      }
      SplitWithoutSeparator(s[1..], sep);
      assert [s[0]] + s[1..] == s;
    }
  }

  /** Split undoes Join: pieces free of the separator, joined with it, split back into themselves. */
  lemma {:induction false} SplitJoin(parts: seq<string>, sep: char)
    requires |parts| >= 1
    requires forall i :: 0 <= i < |parts| ==> sep !in parts[i]
    ensures Split(Join(parts, [sep]), sep) == parts
    decreases |parts|
  {
    if |parts| == 1 {
      SplitWithoutSeparator(parts[0], sep);
    } else {
      SplitJoin(parts[1..], sep);
      SplitConcat(parts[0], Join(parts[1..], [sep]), sep);
      SplitWithoutSeparator(parts[0], sep);
      assert parts == [parts[0]] + parts[1..];
    }
  }
}
